=== FILE: README.md ===
# Stock analysis panel: indicators, variations and ratings

A Dafny model of the computational core of `analisis.py`, a small Streamlit
dashboard that shows one stock. The dashboard takes a ticker and draws a panel
from the stock's price history and its provider record of fundamentals. The
model covers everything the panel computes:

- the technical indicators: RSI over 14 sessions, simple moving averages over
  50 and 200 sessions, and MACD (EMAs of span 12 and 26, with a signal EMA of
  span 9);
- the percentage variations of the latest close: daily, weekly, monthly,
  year-to-date and annual;
- the normalisation of the provider's fundamentals: return on equity and
  dividend yield become percentages, and market capitalisation becomes
  trillions;
- the three-way threshold colouring (`color_indicator`);
- every colour and "N/A" decision the panel makes.

Modules:

- `Optional`: `Option`, which stands for pandas' NaN inside series and for
  Python's `None`.
- `Floats`: a small IEEE-style value type (finite, plus or minus infinity, NaN).
  The RSI formula needs it, because `gain / loss` with a zero loss goes through
  infinity or NaN.
- `Series`: sums and means of real sequences, and their bounds.
- `Indicators`: `SMA`, `Ema`, `MACD` and `RSI`, built the way pandas builds
  them (`diff`, `where`, `rolling(p).mean()`, `ewm(span, adjust=False)`).
- `Classification`: `color_indicator`, for defined values and for readings
  that may be NaN.
- `Variations`: the price history as bars and the variation arithmetic of
  `get_stock_data`.
- `Fundamentals`: the provider record as a map and the normaliser of
  `get_fundamental_data`.
- `Display`: the decisions of `create_panel`, section by section.

Floating-point numbers are modelled as exact reals. The current calendar year,
which the program reads from the wall clock, is a parameter.

What the program does on incomplete data, and how the model records it:

- The program does not degrade field by field on a short history: indexing
  raises `IndexError` and the whole panel fails. So the requirements the
  program places on a history are preconditions (`Variations.Computable`): at
  least 22 bars, since the monthly change reads `[-22]` (the close 21 bars
  before the latest), and a bar dated in the current year.
- There is no separate "not available" classification. A NaN reading (an RSI
  over a window with no moves, a moving average without a full window) is
  coloured white, because every comparison with NaN is false. "N/A" appears
  for an absent annual variation (fewer than 252 bars), and for fundamentals,
  where it means "falsy": absent *or exactly zero*.
- For the moving averages, the price is the value and the average serves as
  both thresholds, so the rating is green above the average, red below it and
  white on it.

## Model

| member | source | states |
|---|---|---|
| Indicators.SMA | analisis.py:15-16 | The rolling mean has one entry per input element. An entry is defined exactly from the position where the window of `p` elements is first full. |
| Indicators.SmaOfShortSeriesIsUndefined | analisis.py:15-16 | A series shorter than the window has no defined rolling mean anywhere. |
| Indicators.SmaSlides | analisis.py:15-16 | Once the window is full, each rolling mean equals the previous one plus the entering element minus the leaving element, each divided by `p`. |
| Indicators.SmaAtLeast | analisis.py:15-16 | A rolling mean never falls below a lower bound of the series. |
| Indicators.Alpha | analisis.py:19-20 | The smoothing factor for a span lies in (0, 1], and times `span + 1` it is 2. |
| Indicators.Ema | analisis.py:19-20 | The non-adjusted EMA has the input's length, starts at the first input, and each later entry is the previous entry smoothed towards the current input. |
| Indicators.EmaUnique | analisis.py:19-20 | Any sequence with that seed and that recurrence is the EMA: the recurrence determines it completely. |
| Indicators.EmaWithin | analisis.py:19-20 | An EMA stays inside any interval that contains every input. |
| Indicators.MACD | analisis.py:18-23 | The MACD line is the short EMA minus the long EMA at every position. The signal line starts at the MACD line and follows the EMA recurrence of the signal span over it. |
| Indicators.MacdOfConstantIsZero | analisis.py:18-23 | On a constant series, both the MACD line and the signal line are zero everywhere. |
| Indicators.Gains | analisis.py:9-10 | The gain series has the input's length and is never negative. Its first entry is zero, because the undefined first difference is replaced by 0. |
| Indicators.Losses | analisis.py:9-11 | The loss series has the input's length and is never negative. Its first entry is zero. |
| Indicators.GainsLossesSplitMoves | analisis.py:9-11 | At most one of gain and loss is non-zero at any position, and gain minus loss is the move from the previous close. |
| Floats.Div | analisis.py:12 | Floating-point division propagates NaN and divides finite numbers exactly by a non-zero divisor. A positive number over zero gives plus infinity, a negative one gives minus infinity, and zero over zero gives NaN. A finite number over an infinity gives zero. |
| Indicators.RsiOfAverages | analisis.py:13 | With a non-negative average gain and a positive average loss, the index lies in [0, 100). |
| Indicators.RsiFloatWithLosses | analisis.py:12-13 | With a positive average loss, the floating-point formula is finite and equals the exact one. |
| Indicators.RsiFloatWithoutLosses | analisis.py:12-13 | With a zero average loss, the formula gives 100 for a positive average gain and NaN for a zero gain. |
| Indicators.RsiFloatOfNaN | analisis.py:12-13 | An undefined average makes the index undefined. |
| Indicators.RsiFormula | analisis.py:12-13 | The four cases of the index at one position: undefined averages, a positive loss, a zero loss with a gain, and no move at all. |
| Indicators.RSI | analisis.py:8-13 | The RSI has one entry per close. It is undefined before position `p - 1`, and every defined entry lies in [0, 100]. |
| Indicators.RsiUndefinedIff | analisis.py:8-13 | An entry is undefined exactly when its window is not full, or when both the average gain and the average loss are zero. |
| Indicators.RsiBelowHundredWithLosses | analisis.py:12-13 | Where the average loss is positive, the RSI is defined and strictly below 100. |
| Indicators.FirstAverageGainIncludesSeedZero | analisis.py:9-10 | The first full window averages only `p - 1` real moves, because the zero that replaced the first difference still counts as one of the `p` entries. |
| Indicators.RsiOfRisingSeriesIsHundred | analisis.py:8-13 | On a strictly rising series, the RSI is exactly 100 wherever its window is full, past the first bar. |
| Indicators.RisingSeriesOnlyGains | analisis.py:9-11 | On a strictly rising series there are no losses, and every move after the first bar is a gain. |
| Indicators.FlatSeriesHasNoMoves | analisis.py:9-11 | On a flat series every gain and every loss is zero. |
| Indicators.RsiOfFlatSeriesIsUndefined | analisis.py:8-13 | On a flat series the RSI is undefined at every position. |
| Classification.ColorIndicator | analisis.py:53-58 | The colour is green exactly when the value is above the buy threshold. It is red exactly when the value is not above the buy threshold and is below the sell threshold. It is white exactly when the value lies between the sell and buy thresholds, both included. |
| Classification.EqualThresholdsAreBinary | analisis.py:100-102 | With equal thresholds the colour is white only on the threshold itself: green above it, red below it. |
| Classification.InvertedThresholdsNeverWhite | analisis.py:106 | With the buy threshold below the sell threshold, as for P/E, no value is white. |
| Classification.ColorIndicatorOf | analisis.py:53-58 | With NaN-able operands, the rule agrees with the real-valued rule when everything is defined. It is white when the value is NaN, and white when both thresholds are NaN. |
| Variations.PctChange | analisis.py:31-35 | Against a positive reference, the change is positive exactly when the close rose. The change is zero exactly when the close did not move. |
| Variations.GrowByPctChange | analisis.py:31-35 | Growing the reference by the percentage change restores the current close. |
| Variations.PctChangeOfGrow | analisis.py:31-35 | The percentage change of a grown reference is the growth that was applied. |
| Variations.PctChangeExamples | analisis.py:31 | From 100 to 110 is +10 %, and from 100 to 90 is -10 %. |
| Variations.FirstBarOfYear | analisis.py:34 | The year-to-date reference is the earliest bar dated in the current year. |
| Variations.GetStockData | analisis.py:30-35 | The current price is the latest close. Each variation grows its reference close (1, 5, 21 and 251 bars back, and the first bar of the year) into the latest close. The annual variation exists exactly when there are 252 or more bars. |
| Fundamentals.Get | analisis.py:44-49 | A lookup is present exactly when the record has the key, and then it holds the record's value. |
| Fundamentals.GetFundamentalData | analisis.py:44-51 | Each field is present exactly when the record has its key. P/E, EPS and beta are copied. ROE and dividend yield are multiplied by 100. Market capitalisation times 10^12 is the record's value. |
| Fundamentals.NormaliseThenRestore | analisis.py:44-51 | Converting the normalised fundamentals back to provider units gives the record restricted to the six metrics, so nothing is lost or invented. |
| Fundamentals.SourceOfNormalised | analisis.py:44-49 | Each metric converts back to exactly the provider's value, or to nothing when the record lacks it. |
| Fundamentals.RestoreThenNormalise | analisis.py:44-51 | Normalising the provider record restored from any fundamentals gives those fundamentals back. |
| Fundamentals.NormaliseExamples | analisis.py:45 | An ROE of 0.18 reads as 18 %. A record without ROE has no ROE, rather than zero. |
| Display.RatedCell | analisis.py:106-109 | A rated metric is "N/A" exactly when it is absent or zero. Otherwise it shows its value in its threshold colour. |
| Display.PlainCell | analisis.py:110-111 | Beta and market capitalisation are "N/A" exactly when absent or zero. Otherwise they are shown in white. |
| Display.VariationColor | analisis.py:79-82 | A variation is never white. It is green exactly when positive, and no change is red. |
| Display.AnnualColor | analisis.py:83-86 | The annual variation is "N/A" exactly when absent and is never white. It is green exactly when present and positive, so a present non-positive variation is red. |
| Display.VolumeColor | analisis.py:115 | The volume rating is never white. It is green exactly when the latest volume is strictly above the mean volume, so a tie is red. Green also implies that some session traded less than the latest one. |
| Display.EqualVolumesAreRed | analisis.py:115 | When every session traded the same volume, the volume rating is red. |
| Display.QuieterSessionBelowMean | analisis.py:64-65 | If the latest volume is above the mean volume, some session traded less than the latest one. |
| Display.PriceSection | analisis.py:79-86 | No variation is ever white. Each one is green exactly when the latest close is above that variation's reference close, and red otherwise. The annual variation is "N/A" exactly when fewer than 252 bars exist. |
| Display.TechnicalSection | analisis.py:99-102 | RSI and the moving averages are white while their windows are not full. On a full window, each moving average is green exactly when the price is above the mean of its window and white exactly when the two are equal, so it is red below. MACD is green exactly when the MACD line is above the signal line, white exactly when they are equal, and red otherwise. |
| Display.FundamentalSection | analisis.py:106-111 | Each of the six metrics is "N/A" exactly when the record lacks it or it is zero. P/E shows the record's value; it is never white, and it is green exactly above 15. ROE (×100) is rated against 15 and 5, EPS against 1 and 0, and dividend yield (×100) against 5 and 2. Beta and market capitalisation are white, with market capitalisation in trillions. |
| Display.CreatePanel | analisis.py:60-117 | The panel's volume rating is never white. It is green exactly when the latest volume is above the mean volume, which requires some quieter session. |
| Display.RisingHistoryPrices | analisis.py:79-86 | On a strictly rising year of closes, the daily, weekly, monthly and annual variations are green. The year-to-date variation is green exactly when the latest bar is not the first bar of the year. |
| Display.RisingSeriesIndicators | analisis.py:99-101 | On a strictly rising series of 200 or more closes, RSI and both moving averages rate green. |
| Display.PriceAboveRisingAverage | analisis.py:100-101 | On a strictly rising series, the latest price is above the mean of any full trailing window of two or more bars. |
| Display.FlatHistoryPrices | analisis.py:79-86 | When the close never moves, every variation is red, because a zero change is not green. |
| Display.FlatSeriesIndicators | analisis.py:99-102 | On a flat series of 200 or more closes, all four technical ratings are white. |

## Left out

- Fetching the history and the provider record through `yfinance` (analisis.py:27-28, 41-42) is not modelled. The history and the record are inputs.
- Rendering with Streamlit and matplotlib, the chart and the text formatting (`:.2f`, volumes in thousands) are not modelled. They are output only.
- The ticker text input (analisis.py:120-122) is not modelled. It is user interaction.
- The wall clock (`pd.Timestamp.now().year`) becomes the `currentYear` parameter.
- IEEE rounding and signed zero are not modelled. Arithmetic is exact. Infinity and NaN appear only where the RSI formula reaches them.
- Open, high and low prices and the full timestamps are not modelled. Only the year of each bar, its close and its volume are read.
- Provider record values that are not numbers are not modelled. The record maps metric keys to reals.
- Fundamentals.Key: a provider name is one key. `Other` is meant for names outside the six metrics, and the type does not forbid `Other("forwardPE")`, which the normaliser would read as absent.
- Short histories: the program does not degrade field by field; indexing raises `IndexError`, so the model states the history's requirements as preconditions (`Variations.Computable`) instead of modelling the exception.
- Indicators.SMA: the rolling mean is defined window by window. The incremental running sum pandas uses is stated as the recurrence `Indicators.SmaSlides` rather than modelled as an algorithm.
- Variations.PctChange: requires a non-zero reference close. numpy would yield an infinite or NaN change there instead of failing.
- Variations.GetStockData: requires every close to be positive (`Computable`). The program only reads the referenced closes, and it divides by them without a check.
- Display.CreatePanel: its own contract covers only the volume rating. The other three sections are stated by `Display.PriceSection`, `Display.TechnicalSection` and `Display.FundamentalSection`, from which it is assembled.
- Display.TechnicalSection: the RSI rating is stated only for histories too short to fill the window. On full windows it is `Classification.ColorIndicatorOf` against 70 and 30.

=== FILE: classification.dfy ===
/** The three-way threshold rule that colours every rated reading. */
module Classification {
  import opened Optional

  datatype Color = Green | Red | White

  /** Green above the buy threshold; otherwise red below the sell threshold;
      white in between (both ends included). */
  function ColorIndicator(value: real, buy: real, sell: real): (c: Color)
    ensures c == Green <==> value > buy
    ensures c == Red <==> value <= buy && value < sell
    ensures c == White <==> sell <= value <= buy
  {
    if value > buy then Green
    else if value < sell then Red
    else White
  }

  /** With equal thresholds there is no neutral band: white only on the
      threshold itself. */
  lemma EqualThresholdsAreBinary(value: real, threshold: real)
    ensures ColorIndicator(value, threshold, threshold) == White <==> value == threshold
    ensures value > threshold ==> ColorIndicator(value, threshold, threshold) == Green
    ensures value < threshold ==> ColorIndicator(value, threshold, threshold) == Red
  {
  }

  /** With the buy threshold below the sell threshold (the P/E rating) every
      value is either green or red. */
  lemma InvertedThresholdsNeverWhite(value: real, buy: real, sell: real)
    requires buy < sell
    ensures ColorIndicator(value, buy, sell) != White
  {
  }

  /** Whether `a > b` holds in floating point, where undefined (NaN)
      operands make every comparison false. */
  function Above(a: Option<real>, b: Option<real>): bool
  {
    a.Some? && b.Some? && a.value > b.value
  }

  /** The same rule applied to readings that may be undefined: an undefined
      value, or undefined thresholds, leave it white. */
  function ColorIndicatorOf(value: Option<real>, buy: Option<real>, sell: Option<real>): (c: Color)
    ensures value.Some? && buy.Some? && sell.Some? ==>
      c == ColorIndicator(value.value, buy.value, sell.value)
    ensures value.None? ==> c == White
    ensures buy.None? && sell.None? ==> c == White
  {
    if Above(value, buy) then Green
    else if Above(sell, value) then Red
    else White
  }
}

=== FILE: display.dfy ===
/** The analysis panel: every reading the page shows, with the colour it is
    shown in. Rendering itself (markup, number formatting, the price chart) is
    not modelled; this is the data and the colouring decisions behind it. */
module Display {
  import opened Optional
  import opened Series
  import opened Indicators
  import opened Classification
  import opened Variations
  import opened Fundamentals

  const RsiPeriod: nat := 14
  const ShortSma: nat := 50
  const LongSma: nat := 200
  const MacdShort: nat := 12
  const MacdLong: nat := 26
  const MacdSignal: nat := 9

  /** A fundamental as displayed: "N/A" in white, or its value in a colour. */
  datatype Cell = NotAvailable | Shown(value: real, color: Color)

  /** Python truthiness of an optional float: absent and zero are both false. */
  predicate Truthy(o: Option<real>)
  {
    o.Some? && o.value != 0.0
  }

  /** A rated fundamental: shown with its threshold colour when truthy, "N/A"
      when absent and also when exactly zero. */
  function RatedCell(o: Option<real>, buy: real, sell: real): (c: Cell)
    ensures c.NotAvailable? <==> o.None? || o.value == 0.0
    ensures c.Shown? ==> c.value == o.value && c.color == ColorIndicator(o.value, buy, sell)
  {
    if Truthy(o) then Shown(o.value, ColorIndicator(o.value, buy, sell)) else NotAvailable
  }

  /** An unrated fundamental (beta, market capitalisation): always white. */
  function PlainCell(o: Option<real>): (c: Cell)
    ensures c.NotAvailable? <==> o.None? || o.value == 0.0
    ensures c.Shown? ==> c.value == o.value && c.color == White
  {
    if Truthy(o) then Shown(o.value, White) else NotAvailable
  }

  /** A price variation is green when positive and red otherwise (no change
      included); it is never white. */
  function VariationColor(v: real): (c: Color)
    ensures c != White
    ensures c == Green <==> v > 0.0
  {
    if v > 0.0 then Green else Red
  }

  /** Latest volume against the mean volume of the whole history: strictly
      above is green, anything else red. The latest volume can only be above
      the mean if some session traded less than it did, so a history of equal
      volumes is red. */
  function VolumeColor(volumes: seq<real>): (c: Color)
    requires |volumes| > 0
    ensures c != White
    ensures c == Green <==> Last(volumes) > Mean(volumes)
    ensures c == Green ==> exists j :: 0 <= j < |volumes| && volumes[j] < Last(volumes)
  {
    var last := Last(volumes);
    if last > Mean(volumes) then
      QuieterSessionBelowMean(volumes);
      Green
    else Red
  }

  /** If no session traded less than the latest one, the mean volume is at
      least the latest volume. */
  lemma QuieterSessionBelowMean(volumes: seq<real>)
    requires |volumes| > 0
    requires Last(volumes) > Mean(volumes)
    ensures exists j :: 0 <= j < |volumes| && volumes[j] < Last(volumes)
  {
    var last := Last(volumes);
    if forall j :: 0 <= j < |volumes| ==> volumes[j] >= last {
      MeanAtLeast(volumes, last, 0);
    }
  }

  /** Equal volumes throughout rate red: the latest volume ties the mean. */
  lemma EqualVolumesAreRed(volumes: seq<real>)
    requires |volumes| > 0
    requires forall j :: 0 <= j < |volumes| ==> volumes[j] == volumes[0]
    ensures VolumeColor(volumes) == Red
  {
    MeanAtMost(volumes, volumes[0], 0);
  }

  /** The annual variation is coloured like the others when present and shown
      as "N/A" when absent. */
  function AnnualColor(a: Option<real>): (c: Option<Color>)
    ensures c.None? <==> a.None?
    ensures c != Some(White)
    ensures c == Some(Green) <==> a.Some? && a.value > 0.0
  {
    match a
    case Some(v) => Some(VariationColor(v))
    case None => None
  }

  /** The price section: the latest close and the colour of each variation. */
  datatype PriceColors = PriceColors(
    price: real,
    daily: Color,
    weekly: Color,
    monthly: Color,
    ytd: Color,
    annual: Option<Color>)

  /** Each variation is green exactly when the latest close is above the
      close it is measured against; the annual one is "N/A" exactly when
      there is less than a trading year of bars. */
  function PriceSection(h: seq<Bar>, currentYear: int): (p: PriceColors)
    requires Computable(h, currentYear)
    ensures p.price == Last(h).close
    ensures p.daily != White && p.weekly != White && p.monthly != White && p.ytd != White
    ensures p.annual != Some(White)
    ensures p.daily == Green <==> Last(h).close > Back(h, 2).close
    ensures p.weekly == Green <==> Last(h).close > Back(h, 6).close
    ensures p.monthly == Green <==> Last(h).close > Back(h, 22).close
    ensures p.ytd == Green <==> Last(h).close > h[FirstBarOfYear(h, currentYear)].close
    ensures p.annual.None? <==> |h| < TradingYear
    ensures p.annual == Some(Green) <==> |h| >= TradingYear && Last(h).close > Back(h, TradingYear).close
  {
    var d := GetStockData(h, currentYear);
    PriceColors(
      d.currentPrice,
      VariationColor(d.daily),
      VariationColor(d.weekly),
      VariationColor(d.monthly),
      VariationColor(d.ytd),
      AnnualColor(d.annual))
  }

  /** The technical section: the colour of each indicator reading. */
  datatype TechnicalColors = TechnicalColors(rsi: Color, sma50: Color, sma200: Color, macd: Color)

  /** RSI rated against 70 and 30, the price against each moving average, and
      the MACD line against its signal line. An undefined reading (a moving
      average without a full window, an RSI over a flat window) is white. */
  function TechnicalSection(closes: seq<real>): (t: TechnicalColors)
    requires |closes| > 0
    ensures |closes| < RsiPeriod ==> t.rsi == White
    ensures |closes| < ShortSma ==> t.sma50 == White
    ensures |closes| < LongSma ==> t.sma200 == White
    ensures |closes| >= ShortSma ==>
      (t.sma50 == Green <==> Last(closes) > Mean(Window(closes, |closes| - 1, ShortSma)))
    ensures |closes| >= ShortSma ==>
      (t.sma50 == White <==> Last(closes) == Mean(Window(closes, |closes| - 1, ShortSma)))
    ensures |closes| >= LongSma ==>
      (t.sma200 == Green <==> Last(closes) > Mean(Window(closes, |closes| - 1, LongSma)))
    ensures |closes| >= LongSma ==>
      (t.sma200 == White <==> Last(closes) == Mean(Window(closes, |closes| - 1, LongSma)))
    ensures t.macd == Green <==>
      Last(MACD(closes, MacdShort, MacdLong, MacdSignal).line) > Last(MACD(closes, MacdShort, MacdLong, MacdSignal).signal)
    ensures t.macd == White <==>
      Last(MACD(closes, MacdShort, MacdLong, MacdSignal).line) == Last(MACD(closes, MacdShort, MacdLong, MacdSignal).signal)
  {
    var price := Some(Last(closes));
    var rsi := RSI(closes, RsiPeriod);
    var sma50 := SMA(closes, ShortSma);
    var sma200 := SMA(closes, LongSma);
    var macd := MACD(closes, MacdShort, MacdLong, MacdSignal);
    TechnicalColors(
      ColorIndicatorOf(Last(rsi), Some(70.0), Some(30.0)),
      ColorIndicatorOf(price, Last(sma50), Last(sma50)),
      ColorIndicatorOf(price, Last(sma200), Last(sma200)),
      ColorIndicator(Last(macd.line) - Last(macd.signal), 0.0, 0.0))
  }

  /** The fundamental section, one cell per metric. */
  datatype FundamentalCells = FundamentalCells(
    peRatio: Cell,
    roe: Cell,
    eps: Cell,
    dividendYield: Cell,
    beta: Cell,
    marketCap: Cell)

  /** P/E is rated against 15 and 25: above 15 is green and anything else
      red, since the buy threshold lies below the sell threshold and leaves
      no neutral band. ROE is rated against 15 and 5, EPS against 1 and 0,
      dividend yield against 5 and 2; beta and market capitalisation are not
      rated. A metric the record lacks, or that is exactly zero, is "N/A". */
  function FundamentalSection(info: Info): (c: FundamentalCells)
    ensures c.peRatio.NotAvailable? <==> !Truthy(Get(info, ForwardPE))
    ensures c.peRatio.Shown? ==> c.peRatio.color != White
    ensures c.peRatio.Shown? ==>
      ForwardPE in info && c.peRatio.value == info[ForwardPE] && (c.peRatio.color == Green <==> info[ForwardPE] > 15.0)
    ensures c.roe.NotAvailable? <==> !Truthy(Get(info, ReturnOnEquity))
    ensures c.roe.Shown? ==> ReturnOnEquity in info && c.roe.value == info[ReturnOnEquity] * Percent
    ensures c.roe.Shown? ==> c.roe.color == ColorIndicator(c.roe.value, 15.0, 5.0)
    ensures c.eps.NotAvailable? <==> !Truthy(Get(info, TrailingEps))
    ensures c.eps.Shown? ==> TrailingEps in info && c.eps.value == info[TrailingEps]
    ensures c.eps.Shown? ==> c.eps.color == ColorIndicator(c.eps.value, 1.0, 0.0)
    ensures c.dividendYield.NotAvailable? <==> !Truthy(Get(info, DividendYield))
    ensures c.dividendYield.Shown? ==>
      DividendYield in info && c.dividendYield.value == info[DividendYield] * Percent
    ensures c.dividendYield.Shown? ==> c.dividendYield.color == ColorIndicator(c.dividendYield.value, 5.0, 2.0)
    ensures c.beta.NotAvailable? <==> !Truthy(Get(info, Beta))
    ensures c.marketCap.NotAvailable? <==> !Truthy(Get(info, MarketCap))
    ensures c.beta.Shown? ==> Beta in info && c.beta.value == info[Beta] && c.beta.color == White
    ensures c.marketCap.Shown? ==> c.marketCap.color == White
    ensures c.marketCap.Shown? ==> MarketCap in info && c.marketCap.value * Trillion == info[MarketCap]
  {
    var f := GetFundamentalData(info);
    FundamentalCells(
      RatedCell(f.peRatio, 15.0, 25.0),
      RatedCell(f.roe, 15.0, 5.0),
      RatedCell(f.eps, 1.0, 0.0),
      RatedCell(f.dividendYield, 5.0, 2.0),
      PlainCell(f.beta),
      PlainCell(f.marketCap))
  }

  datatype Panel = Panel(
    prices: PriceColors,
    technical: TechnicalColors,
    fundamentals: FundamentalCells,
    volume: Color)

  /** The panel for one instrument from its price history, its provider
      record and the current calendar year. */
  function CreatePanel(h: seq<Bar>, info: Info, currentYear: int): (p: Panel)
    requires Computable(h, currentYear)
    ensures p.volume != White
    ensures p.volume == Green <==> Last(Volumes(h)) > Mean(Volumes(h))
    ensures p.volume == Green ==> exists j :: 0 <= j < |h| && Volumes(h)[j] < Last(Volumes(h))
  {
    var volumes := Volumes(h);
    Panel(
      PriceSection(h, currentYear),
      TechnicalSection(Closes(h)),
      FundamentalSection(info),
      VolumeColor(volumes))
  }

  /** A history that rose at every session for at least a trading year shows
      every dated variation green and an annual variation. The year-to-date
      variation is green unless the latest bar is the first of the year, in
      which case it is zero and red. */
  lemma RisingHistoryPrices(h: seq<Bar>, currentYear: int)
    requires Computable(h, currentYear)
    requires StrictlyIncreasing(Closes(h))
    requires |h| >= TradingYear
    ensures PriceSection(h, currentYear).daily == Green
    ensures PriceSection(h, currentYear).weekly == Green
    ensures PriceSection(h, currentYear).monthly == Green
    ensures PriceSection(h, currentYear).annual == Some(Green)
    ensures PriceSection(h, currentYear).ytd == Green <==> FirstBarOfYear(h, currentYear) < |h| - 1
  {
    var c := Closes(h);
    var n := |h| - 1;
    var k := FirstBarOfYear(h, currentYear);
    RisingIsOrdered(c, n - 1, n);
    RisingIsOrdered(c, n - 5, n);
    RisingIsOrdered(c, n - 21, n);
    RisingIsOrdered(c, n + 1 - TradingYear, n);
    if k < n {
      RisingIsOrdered(c, k, n);
    }
    var p := PriceSection(h, currentYear);
    assert Back(h, 2).close < Last(h).close;
    assert Back(h, 6).close < Last(h).close;
    assert Back(h, 22).close < Last(h).close;
    assert Back(h, TradingYear).close < Last(h).close;
  }

  /** On a strictly rising series of at least 200 closes the price is above
      both moving averages and the RSI is 100, so all three rate green. */
  lemma RisingSeriesIndicators(c: seq<real>)
    requires StrictlyIncreasing(c)
    requires |c| >= LongSma
    ensures TechnicalSection(c).sma50 == Green
    ensures TechnicalSection(c).sma200 == Green
    ensures TechnicalSection(c).rsi == Green
  {
    PriceAboveRisingAverage(c, ShortSma);
    PriceAboveRisingAverage(c, LongSma);
    RsiOfRisingSeriesIsHundred(c, RsiPeriod, |c| - 1);
  }

  /** On a strictly rising series the latest price is above the mean of any
      full trailing window of two or more bars. */
  lemma PriceAboveRisingAverage(c: seq<real>, p: nat)
    requires StrictlyIncreasing(c)
    requires 2 <= p <= |c|
    ensures Mean(Window(c, |c| - 1, p)) < Last(c)
  {
    var n := |c| - 1;
    var w := Window(c, n, p);
    forall j | 0 <= j < p - 1
      ensures w[j] < c[n]
    {
      RisingIsOrdered(c, n + 1 - p + j, n);
    }
    MeanAtMost(w, c[n], 0);
  }

  /** A history whose close never moves shows every variation red: a zero
      change is not green. */
  lemma FlatHistoryPrices(h: seq<Bar>, currentYear: int)
    requires Computable(h, currentYear)
    requires forall j :: 0 <= j < |h| ==> h[j].close == h[0].close
    ensures PriceSection(h, currentYear).daily == Red
    ensures PriceSection(h, currentYear).weekly == Red
    ensures PriceSection(h, currentYear).monthly == Red
    ensures PriceSection(h, currentYear).ytd == Red
    ensures PriceSection(h, currentYear).annual.Some? ==> PriceSection(h, currentYear).annual == Some(Red)
  {
  }

  /** On a flat series of at least 200 closes the price sits exactly on both
      moving averages and the MACD line on its signal line, all white; the
      RSI is undefined, which is white too. */
  lemma FlatSeriesIndicators(c: seq<real>)
    requires forall j :: 0 <= j < |c| ==> c[j] == c[0]
    requires |c| >= LongSma
    ensures TechnicalSection(c) == TechnicalColors(White, White, White, White)
  {
    var n := |c| - 1;
    RsiOfFlatSeriesIsUndefined(c, RsiPeriod, n);
    MeanAtMost(Window(c, n, ShortSma), c[0], 0);
    MeanAtLeast(Window(c, n, ShortSma), c[0], 0);
    MeanAtMost(Window(c, n, LongSma), c[0], 0);
    MeanAtLeast(Window(c, n, LongSma), c[0], 0);
    MacdOfConstantIsZero(c, c[0], MacdShort, MacdLong, MacdSignal);
  }
}

=== FILE: floats.dfy ===
/** Double-precision values seen through exact reals: a finite number, one of
    the two infinities, or not-a-number. Only the operations the RSI formula
    goes through are given, with their IEEE-754 special cases; rounding and
    signed zero are not modelled. */
module Floats {
  import opened Optional

  datatype Float = Num(v: real) | PosInf | NegInf | NaN

  /** A possibly undefined series entry as a float: undefined is NaN. */
  function OfOption(o: Option<real>): Float
  {
    match o
    case Some(x) => Num(x)
    case None => NaN
  }

  /** Back to the series view: every non-finite float is an undefined entry. */
  function ToOption(f: Float): Option<real>
  {
    match f
    case Num(x) => Some(x)
    case _ => None
  }

  function Neg(a: Float): (r: Float)
    ensures r.NaN? <==> a.NaN?
  {
    match a
    case Num(x) => Num(-x)
    case PosInf => NegInf
    case NegInf => PosInf
    case NaN => NaN
  }

  /** Sum; NaN is absorbing, and opposite infinities give NaN. */
  function Add(a: Float, b: Float): (r: Float)
    ensures a.NaN? || b.NaN? ==> r.NaN?
    ensures a.Num? && b.Num? ==> r.Num?
  {
    match (a, b)
    case (NaN, _) => NaN
    case (_, NaN) => NaN
    case (PosInf, NegInf) => NaN
    case (NegInf, PosInf) => NaN
    case (PosInf, _) => PosInf
    case (_, PosInf) => PosInf
    case (NegInf, _) => NegInf
    case (_, NegInf) => NegInf
    case (Num(x), Num(y)) => Num(x + y)
  }

  function Sub(a: Float, b: Float): (r: Float)
    ensures a.NaN? || b.NaN? ==> r.NaN?
  {
    Add(a, Neg(b))
  }

  /** Division: a non-zero number over zero is an infinity of its sign,
      zero over zero is NaN, a finite number over an infinity is zero, and an
      infinity over an infinity is NaN. Zero is taken to be positive zero. */
  function Div(a: Float, b: Float): (r: Float)
    ensures a.NaN? || b.NaN? ==> r.NaN?
    ensures a.Num? && b.Num? && b.v != 0.0 ==> r == Num(a.v / b.v)
    ensures a.Num? && b.Num? && b.v == 0.0 ==>
      (r.PosInf? <==> a.v > 0.0) && (r.NegInf? <==> a.v < 0.0) && (r.NaN? <==> a.v == 0.0)
    ensures a.Num? && !b.Num? && !b.NaN? ==> r == Num(0.0)
  {
    match (a, b)
    case (NaN, _) => NaN
    case (_, NaN) => NaN
    case (Num(x), Num(y)) =>
      if y != 0.0 then Num(x / y)
      else if x > 0.0 then PosInf
      else if x < 0.0 then NegInf
      else NaN
    case (Num(_), _) => Num(0.0)
    case (PosInf, Num(y)) => if y >= 0.0 then PosInf else NegInf
    case (NegInf, Num(y)) => if y >= 0.0 then NegInf else PosInf
    case _ => NaN
  }
}

=== FILE: fundamentals.dfy ===
/** The company fundamentals read from the provider's record, converted to
    display units. */
module Fundamentals {
  import opened Optional

  /** The names under which the provider's record carries a metric: the six
      the normaliser reads, and `Other` for every remaining name. `Other`
      never carries the name of one of the six (such as "forwardPE"): each
      provider name has exactly one key. */
  datatype Key = ForwardPE | ReturnOnEquity | TrailingEps | DividendYield | Beta | MarketCap
               | Other(name: string)

  /** The provider's record: numeric fields by name; an omitted field has no
      key. */
  type Info = map<Key, real>

  const Percent: real := 100.0
  const Trillion: real := 1_000_000_000_000.0

  /** Fundamentals in display units: return on equity and dividend yield as
      percentages, market capitalisation in trillions. */
  datatype FundamentalData = FundamentalData(
    peRatio: Option<real>,
    roe: Option<real>,
    eps: Option<real>,
    dividendYield: Option<real>,
    beta: Option<real>,
    marketCap: Option<real>)

  /** Dictionary lookup defaulting to absent. */
  function Get(info: Info, key: Key): (o: Option<real>)
    ensures o.Some? <==> key in info
    ensures o.Some? ==> o.value == info[key]
  {
    if key in info then Some(info[key]) else None
  }

  /** A present value multiplied by `k`; absent stays absent. */
  function Times(o: Option<real>, k: real): Option<real>
  {
    match o
    case Some(v) => Some(v * k)
    case None => None
  }

  /** A present value divided by `k`; absent stays absent. */
  function Over(o: Option<real>, k: real): Option<real>
    requires k != 0.0
  {
    match o
    case Some(v) => Some(v / k)
    case None => None
  }

  /** Each field is present exactly when the record has it. P/E, EPS and beta
      are taken as they are; return on equity and dividend yield are scaled
      from fractions to percentages; market capitalisation is scaled to
      trillions. */
  function GetFundamentalData(info: Info): (f: FundamentalData)
    ensures f.peRatio.Some? <==> ForwardPE in info
    ensures f.roe.Some? <==> ReturnOnEquity in info
    ensures f.eps.Some? <==> TrailingEps in info
    ensures f.dividendYield.Some? <==> DividendYield in info
    ensures f.beta.Some? <==> Beta in info
    ensures f.marketCap.Some? <==> MarketCap in info
    ensures f.peRatio.Some? ==> f.peRatio.value == info[ForwardPE]
    ensures f.roe.Some? ==> f.roe.value == info[ReturnOnEquity] * Percent
    ensures f.eps.Some? ==> f.eps.value == info[TrailingEps]
    ensures f.dividendYield.Some? ==> f.dividendYield.value == info[DividendYield] * Percent
    ensures f.beta.Some? ==> f.beta.value == info[Beta]
    ensures f.marketCap.Some? ==> f.marketCap.value * Trillion == info[MarketCap]
  {
    FundamentalData(
      Get(info, ForwardPE),
      Times(Get(info, ReturnOnEquity), Percent),
      Get(info, TrailingEps),
      Times(Get(info, DividendYield), Percent),
      Get(info, Beta),
      Over(Get(info, MarketCap), Trillion))
  }

  /** The metrics the normaliser reads. */
  const Metrics: set<Key> := {ForwardPE, ReturnOnEquity, TrailingEps, DividendYield, Beta, MarketCap}

  /** The provider value a field of the fundamentals came from, converted
      back to provider units. */
  function Source(f: FundamentalData, k: Key): Option<real>
  {
    match k
    case ForwardPE => f.peRatio
    case ReturnOnEquity => Over(f.roe, Percent)
    case TrailingEps => f.eps
    case DividendYield => Over(f.dividendYield, Percent)
    case Beta => f.beta
    case MarketCap => Times(f.marketCap, Trillion)
    case Other(_) => None
  }

  /** The provider record that a set of fundamentals came from: display units
      converted back, absent fields left out. */
  function ToInfo(f: FundamentalData): Info
  {
    map k | k in Metrics && Source(f, k).Some? :: Source(f, k).value
  }

  /** Normalising loses nothing the normaliser reads: converting back yields
      the record restricted to its six fields. */
  lemma NormaliseThenRestore(info: Info)
    ensures ToInfo(GetFundamentalData(info)) == map k | k in info && k in Metrics :: info[k]
  {
    forall k
      ensures Source(GetFundamentalData(info), k) == if k in info && k in Metrics then Some(info[k]) else None
    {
      SourceOfNormalised(info, k);
    }
  }

  /** Each metric converts back to exactly the provider's value. */
  lemma SourceOfNormalised(info: Info, k: Key)
    ensures Source(GetFundamentalData(info), k) == if k in info && k in Metrics then Some(info[k]) else None
  {
    match k
    case ReturnOnEquity =>
      if k in info {
        assert info[k] * Percent / Percent == info[k];
      }
    case DividendYield =>
      if k in info {
        assert info[k] * Percent / Percent == info[k];
      }
    case _ =>
  }

  /** Restoring a record and normalising it again gives back the same
      fundamentals. */
  lemma RestoreThenNormalise(f: FundamentalData)
    ensures GetFundamentalData(ToInfo(f)) == f
  {
    if f.marketCap.Some? {
      assert f.marketCap.value * Trillion / Trillion == f.marketCap.value;
    }
  }

  /** A return on equity of 0.18 reads as 18 percent; a record without it
      has no return on equity at all, not zero. */
  lemma NormaliseExamples()
    ensures GetFundamentalData(map[ReturnOnEquity := 0.18]).roe == Some(18.0)
    ensures GetFundamentalData(map[]).roe == None
  {
  }
}

=== FILE: indicators.dfy ===
/** The technical indicators computed over a close-price series: the simple
    moving average, the exponential moving average and MACD built on it, and
    the relative strength index. Every output is aligned index for index with
    its input; `None` marks the positions where pandas yields not-a-number. */
module Indicators {
  import opened Optional
  import opened Series
  import Floats

  // ---------------------------------------------------------------------------
  // Simple moving average (a pandas rolling mean with a full window)
  // ---------------------------------------------------------------------------

  /** The `p` elements of `s` that end at position `i`. */
  function Window(s: seq<real>, i: nat, p: nat): (w: seq<real>)
    requires p >= 1 && p - 1 <= i < |s|
    ensures |w| == p
  {
    s[i + 1 - p..i + 1]
  }

  /** The rolling mean at position `i`: the mean of the window that ends there
      once `p` elements are available, undefined before. */
  function SmaAt(s: seq<real>, p: nat, i: nat): Option<real>
    requires p >= 1 && i < |s|
  {
    if i >= p - 1 then Some(Mean(Window(s, i, p))) else None
  }

  /** The trailing rolling mean of window `p`, position by position. */
  function SMA(s: seq<real>, p: nat): (r: seq<Option<real>>)
    requires p >= 1
    ensures |r| == |s|
    ensures forall i :: 0 <= i < |s| ==> (r[i].Some? <==> i >= p - 1)
  {
    seq(|s|, i requires 0 <= i < |s| => SmaAt(s, p, i))
  }

  /** A series shorter than the window has no rolling mean anywhere. */
  lemma SmaOfShortSeriesIsUndefined(s: seq<real>, p: nat)
    requires 1 <= p && |s| < p
    ensures forall i :: 0 <= i < |s| ==> SMA(s, p)[i] == None
  {
  }

  /** Once the window is full, each step of the rolling mean adds the entering
      element and drops the leaving one, each weighted by `1 / p`. */
  lemma SmaSlides(s: seq<real>, p: nat, i: nat)
    requires p >= 1 && p <= i < |s|
    ensures SMA(s, p)[i].value == SMA(s, p)[i - 1].value + (s[i] - s[i - p]) / p as real
  {
    SumExtendRight(s, i - p, i);
    SumShrinkLeft(s, i - p, i + 1);
    assert s[i - p..i] == Window(s, i - 1, p);
  }

  /** Every defined entry of the rolling mean of a series bounded below by `m`
      is bounded below by `m`. */
  lemma SmaAtLeast(s: seq<real>, p: nat, m: real)
    requires p >= 1
    requires forall j :: 0 <= j < |s| ==> s[j] >= m
    ensures forall i :: 0 <= i < |s| && SMA(s, p)[i].Some? ==> SMA(s, p)[i].value >= m
  {
    forall i | 0 <= i < |s| && SMA(s, p)[i].Some?
      ensures SMA(s, p)[i].value >= m
    {
      MeanAtLeast(Window(s, i, p), m, 0);
    }
  }

  // ---------------------------------------------------------------------------
  // Exponential moving average and MACD
  // ---------------------------------------------------------------------------

  /** The smoothing factor pandas derives from a span. */
  function Alpha(span: nat): (a: real)
    requires span >= 1
    ensures 0.0 < a <= 1.0
    ensures a * (span as real + 1.0) == 2.0
  {
    2.0 / (span as real + 1.0)
  }

  /** One smoothing step: move `prev` a fraction `alpha` of the way toward `x`. */
  function Smooth(prev: real, x: real, alpha: real): real
  {
    (1.0 - alpha) * prev + alpha * x
  }

  lemma MulNonNegative(a: real, b: real)
    requires a >= 0.0 && b >= 0.0
    ensures a * b >= 0.0
  {
  }

  /** With a smoothing factor in [0, 1] a step lands between its two operands,
      so it keeps any bounds both of them respect. */
  lemma SmoothWithin(prev: real, x: real, alpha: real, lo: real, hi: real)
    requires 0.0 <= alpha <= 1.0
    requires lo <= prev <= hi && lo <= x <= hi
    ensures lo <= Smooth(prev, x, alpha) <= hi
  {
    var b := 1.0 - alpha;
    assert Smooth(prev, x, alpha) == b * prev + alpha * x;
    MulNonNegative(b, hi - prev);
    MulNonNegative(b, prev - lo);
    MulNonNegative(alpha, hi - x);
    MulNonNegative(alpha, x - lo);
    assert hi - (b * prev + alpha * x) == b * (hi - prev) + alpha * (hi - x);
    assert (b * prev + alpha * x) - lo == b * (prev - lo) + alpha * (x - lo);
  }

  /** The non-adjusted exponential moving average: seeded with the first
      element, then each position moves the previous average a fraction
      `alpha` of the way toward the new element. Defined from index 0. */
  function Ema(x: seq<real>, alpha: real): (e: seq<real>)
    ensures |e| == |x|
    ensures |x| > 0 ==> e[0] == x[0]
    ensures forall t :: 1 <= t < |x| ==> e[t] == Smooth(e[t - 1], x[t], alpha)
    decreases |x|
  {
    if |x| <= 1 then x
    else
      var n := |x| - 1;
      var prev := Ema(x[..n], alpha);
      prev + [Smooth(prev[n - 1], x[n], alpha)]
  }

  /** Any sequence that is seeded with the first input and follows the
      smoothing recurrence is the exponential moving average. */
  lemma EmaUnique(e: seq<real>, x: seq<real>, alpha: real)
    requires |e| == |x|
    requires |x| > 0 ==> e[0] == x[0]
    requires forall t :: 1 <= t < |x| ==> e[t] == Smooth(e[t - 1], x[t], alpha)
    ensures e == Ema(x, alpha)
  {
    forall t | 0 <= t < |x|
      ensures e[t] == Ema(x, alpha)[t]
    {
      EmaUniqueAt(e, x, alpha, t);
    }
  }

  lemma {:induction false} EmaUniqueAt(e: seq<real>, x: seq<real>, alpha: real, t: nat)
    requires |e| == |x| && t < |x|
    requires e[0] == x[0]
    requires forall u :: 1 <= u < |x| ==> e[u] == Smooth(e[u - 1], x[u], alpha)
    ensures e[t] == Ema(x, alpha)[t]
    decreases t
  {
    if t > 0 {
      EmaUniqueAt(e, x, alpha, t - 1);
    }
  }

  /** With a smoothing factor in [0, 1], every average is a convex combination
      of inputs, so it stays within any bounds the inputs respect. */
  lemma {:induction false} EmaWithin(x: seq<real>, alpha: real, lo: real, hi: real, t: nat)
    requires 0.0 <= alpha <= 1.0
    requires forall j :: 0 <= j < |x| ==> lo <= x[j] <= hi
    requires t < |x|
    ensures lo <= Ema(x, alpha)[t] <= hi
    decreases t
  {
    if t > 0 {
      EmaWithin(x, alpha, lo, hi, t - 1);
      var e := Ema(x, alpha);
      SmoothWithin(e[t - 1], x[t], alpha, lo, hi);
    }
  }

  /** The two MACD series: the difference of a short and a long EMA, and the
      EMA of that difference (the signal line). */
  datatype Macd = Macd(line: seq<real>, signal: seq<real>)

  function MACD(x: seq<real>, shortSpan: nat, longSpan: nat, signalSpan: nat): (m: Macd)
    requires shortSpan >= 1 && longSpan >= 1 && signalSpan >= 1
    ensures |m.line| == |x| && |m.signal| == |x|
    ensures forall i :: 0 <= i < |x| ==>
      m.line[i] == Ema(x, Alpha(shortSpan))[i] - Ema(x, Alpha(longSpan))[i]
    ensures |x| > 0 ==> m.signal[0] == m.line[0]
    ensures forall t :: 1 <= t < |x| ==>
      m.signal[t] == Smooth(m.signal[t - 1], m.line[t], Alpha(signalSpan))
  {
    var short := Ema(x, Alpha(shortSpan));
    var long := Ema(x, Alpha(longSpan));
    var line := seq(|x|, i requires 0 <= i < |x| => short[i] - long[i]);
    Macd(line, Ema(line, Alpha(signalSpan)))
  }

  /** On a constant price series both EMAs stay at the price, so the MACD line
      and the signal line are zero everywhere. */
  lemma MacdOfConstantIsZero(x: seq<real>, c: real, shortSpan: nat, longSpan: nat, signalSpan: nat)
    requires shortSpan >= 1 && longSpan >= 1 && signalSpan >= 1
    requires forall j :: 0 <= j < |x| ==> x[j] == c
    ensures forall i :: 0 <= i < |x| ==> MACD(x, shortSpan, longSpan, signalSpan).line[i] == 0.0
    ensures forall i :: 0 <= i < |x| ==> MACD(x, shortSpan, longSpan, signalSpan).signal[i] == 0.0
  {
    var m := MACD(x, shortSpan, longSpan, signalSpan);
    forall i | 0 <= i < |x|
      ensures m.line[i] == 0.0
    {
      EmaWithin(x, Alpha(shortSpan), c, c, i);
      EmaWithin(x, Alpha(longSpan), c, c, i);
    }
    EmaUnique(m.signal, m.line, Alpha(signalSpan));
    forall i | 0 <= i < |x|
      ensures m.signal[i] == 0.0
    {
      EmaWithin(m.line, Alpha(signalSpan), 0.0, 0.0, i);
    }
  }

  // ---------------------------------------------------------------------------
  // Relative strength index
  // ---------------------------------------------------------------------------

  /** pandas `diff()`: the first position has no predecessor and is undefined. */
  function Diff(x: seq<real>): seq<Option<real>>
  {
    seq(|x|, i requires 0 <= i < |x| => if i == 0 then None else Some(x[i] - x[i - 1]))
  }

  /** pandas `where(cond, other)`: keeps an entry when the condition holds of
      it and puts `other` elsewhere. A comparison with not-a-number is false,
      so undefined entries are replaced too. */
  function Where(d: seq<Option<real>>, cond: real -> bool, other: real): seq<real>
  {
    seq(|d|, i requires 0 <= i < |d| => if d[i].Some? && cond(d[i].value) then d[i].value else other)
  }

  function Negate(s: seq<real>): seq<real>
  {
    seq(|s|, i requires 0 <= i < |s| => -s[i])
  }

  /** Upward moves: the positive differences, zero elsewhere. */
  function Gains(x: seq<real>): (g: seq<real>)
    ensures |g| == |x|
    ensures forall i :: 0 <= i < |x| ==> g[i] >= 0.0
    ensures |x| > 0 ==> g[0] == 0.0
  {
    Where(Diff(x), d => d > 0.0, 0.0)
  }

  /** Downward moves as magnitudes: the negated negative differences, zero
      elsewhere. */
  function Losses(x: seq<real>): (l: seq<real>)
    ensures |l| == |x|
    ensures forall i :: 0 <= i < |x| ==> l[i] >= 0.0
    ensures |x| > 0 ==> l[0] == 0.0
  {
    Negate(Where(Diff(x), d => d < 0.0, 0.0))
  }

  /** Gains and losses split each bar-over-bar move: at most one of them is
      non-zero, and their difference is the move itself. */
  lemma GainsLossesSplitMoves(x: seq<real>, i: nat)
    requires 1 <= i < |x|
    ensures Gains(x)[i] - Losses(x)[i] == x[i] - x[i - 1]
    ensures Gains(x)[i] == 0.0 || Losses(x)[i] == 0.0
  {
  }

  /** `100 - 100 / (1 + gain / loss)` evaluated in floating point. */
  function RsiFloat(gain: Floats.Float, loss: Floats.Float): Floats.Float
  {
    var rs := Floats.Div(gain, loss);
    Floats.Sub(Floats.Num(100.0), Floats.Div(Floats.Num(100.0), Floats.Add(Floats.Num(1.0), rs)))
  }

  /** The index for a positive average loss, in exact arithmetic. */
  function RsiOfAverages(gain: real, loss: real): (r: real)
    requires gain >= 0.0 && loss > 0.0
    ensures 0.0 <= r < 100.0
  {
    var d := 1.0 + gain / loss;
    var f := 100.0 / d;
    assert gain / loss >= 0.0;
    assert f * d == 100.0;
    assert f * (d - 1.0) >= 0.0;
    100.0 - f
  }

  /** With a positive average loss the floating-point formula is finite and
      equals the exact one. */
  lemma RsiFloatWithLosses(gain: real, loss: real)
    requires gain >= 0.0 && loss > 0.0
    ensures RsiFloat(Floats.Num(gain), Floats.Num(loss)) == Floats.Num(RsiOfAverages(gain, loss))
  {
    var q := gain / loss;
    assert Floats.Div(Floats.Num(gain), Floats.Num(loss)) == Floats.Num(q);
    assert q >= 0.0;
    assert 1.0 + q != 0.0;
  }

  /** With a zero average loss the ratio is infinite when the average gain is
      positive, giving 100, and not-a-number when the gain is zero too. */
  lemma RsiFloatWithoutLosses(gain: real)
    requires gain >= 0.0
    ensures gain > 0.0 ==> RsiFloat(Floats.Num(gain), Floats.Num(0.0)) == Floats.Num(100.0)
    ensures gain == 0.0 ==> RsiFloat(Floats.Num(gain), Floats.Num(0.0)) == Floats.NaN
  {
  }

  /** An undefined average makes the whole formula not-a-number. */
  lemma RsiFloatOfNaN(gain: Floats.Float, loss: Floats.Float)
    requires gain.NaN? || loss.NaN?
    ensures RsiFloat(gain, loss) == Floats.NaN
  {
  }

  /** The RSI of one position from its average gain and average loss, as the
      floating-point formula yields it: an undefined average gives an undefined
      index; a positive average loss gives a finite index in [0, 100); a zero
      average loss sends the ratio to infinity, so the index is 100 when the
      average gain is positive and undefined (zero over zero) when it is zero. */
  function RsiFormula(gain: Option<real>, loss: Option<real>): (r: Option<real>)
    ensures gain.None? || loss.None? ==> r.None?
    ensures gain.Some? && loss.Some? && gain.value >= 0.0 && loss.value > 0.0 ==>
      r == Some(RsiOfAverages(gain.value, loss.value))
    ensures gain.Some? && loss.Some? && gain.value > 0.0 && loss.value == 0.0 ==> r == Some(100.0)
    ensures gain.Some? && loss.Some? && gain.value == 0.0 && loss.value == 0.0 ==> r.None?
  {
    var f := RsiFloat(Floats.OfOption(gain), Floats.OfOption(loss));
    if gain.None? || loss.None? then
      RsiFloatOfNaN(Floats.OfOption(gain), Floats.OfOption(loss));
      Floats.ToOption(f)
    else if gain.value >= 0.0 && loss.value > 0.0 then
      RsiFloatWithLosses(gain.value, loss.value);
      Floats.ToOption(f)
    else if gain.value >= 0.0 && loss.value == 0.0 then
      RsiFloatWithoutLosses(gain.value);
      Floats.ToOption(f)
    else
      Floats.ToOption(f)
  }

  /** The average gain and average loss over the trailing window of `p` moves. */
  function AverageGain(x: seq<real>, p: nat): (g: seq<Option<real>>)
    requires p >= 1
  {
    SMA(Gains(x), p)
  }

  function AverageLoss(x: seq<real>, p: nat): (l: seq<Option<real>>)
    requires p >= 1
  {
    SMA(Losses(x), p)
  }

  /** The relative strength index over window `p`. Undefined before position
      `p - 1`; where defined it lies between 0 and 100. */
  function RSI(x: seq<real>, p: nat): (r: seq<Option<real>>)
    requires p >= 1
    ensures |r| == |x|
    ensures forall i :: 0 <= i < |x| && i < p - 1 ==> r[i].None?
    ensures forall i :: 0 <= i < |x| && r[i].Some? ==> 0.0 <= r[i].value <= 100.0
  {
    var g := AverageGain(x, p);
    var l := AverageLoss(x, p);
    SmaAtLeast(Gains(x), p, 0.0);
    SmaAtLeast(Losses(x), p, 0.0);
    seq(|x|, i requires 0 <= i < |x| => RsiFormula(g[i], l[i]))
  }

  /** An RSI position is undefined exactly when its window is not yet full, or
      when neither a gain nor a loss occurred within it. */
  lemma RsiUndefinedIff(x: seq<real>, p: nat, i: nat)
    requires p >= 1 && i < |x|
    ensures RSI(x, p)[i].None? <==>
      i < p - 1 || (AverageGain(x, p)[i] == Some(0.0) && AverageLoss(x, p)[i] == Some(0.0))
  {
    SmaAtLeast(Gains(x), p, 0.0);
    SmaAtLeast(Losses(x), p, 0.0);
  }

  /** Where the average loss is positive the index is finite and below 100. */
  lemma RsiBelowHundredWithLosses(x: seq<real>, p: nat, i: nat)
    requires p >= 1 && i < |x|
    requires AverageLoss(x, p)[i].Some? && AverageLoss(x, p)[i].value > 0.0
    ensures RSI(x, p)[i].Some? && 0.0 <= RSI(x, p)[i].value < 100.0
  {
    SmaAtLeast(Gains(x), p, 0.0);
  }

  /** The first defined position averages the `p - 1` real moves together
      with the zero that stands in for the undefined first difference, so the
      window sum of gains is divided by `p`, not by the number of moves. */
  lemma {:induction false} FirstAverageGainIncludesSeedZero(x: seq<real>, p: nat)
    requires p >= 1 && p <= |x|
    ensures AverageGain(x, p)[p - 1] == Some(Sum(Gains(x)[1..p]) / p as real)
  {
    var g := Gains(x);
    var w := Window(g, p - 1, p);
    assert w == g[..p];
    SumDropFirst(w);
    assert w[1..] == g[1..p];
  }

  predicate StrictlyIncreasing(x: seq<real>)
  {
    forall i :: 1 <= i < |x| ==> x[i - 1] < x[i]
  }

  /** On a strictly rising series there are no losses, so from the first full
      window on (and past the first bar) the index is exactly 100. */
  lemma RsiOfRisingSeriesIsHundred(x: seq<real>, p: nat, i: nat)
    requires p >= 1 && StrictlyIncreasing(x)
    requires p - 1 <= i < |x| && i >= 1
    ensures RSI(x, p)[i] == Some(100.0)
  {
    RisingSeriesOnlyGains(x);
    var g := Window(Gains(x), i, p);
    var l := Window(Losses(x), i, p);
    MeanAtMost(l, 0.0, 0);
    MeanAtLeast(l, 0.0, 0);
    assert g[p - 1] > 0.0;
    MeanAtLeast(g, 0.0, p - 1);
    assert AverageLoss(x, p)[i] == Some(0.0);
  }

  /** On a strictly rising series every move after the first bar is a gain,
      and there is no loss anywhere. */
  lemma RisingSeriesOnlyGains(x: seq<real>)
    requires StrictlyIncreasing(x)
    ensures forall j :: 0 <= j < |x| ==> Losses(x)[j] == 0.0
    ensures forall j :: 1 <= j < |x| ==> Gains(x)[j] > 0.0
  {
    forall j | 1 <= j < |x|
      ensures Gains(x)[j] > 0.0 && Losses(x)[j] == 0.0
    {
      GainsLossesSplitMoves(x, j);
    }
  }

  /** In a strictly rising series every earlier element is below every later
      one. */
  lemma {:induction false} RisingIsOrdered(x: seq<real>, i: nat, j: nat)
    requires StrictlyIncreasing(x)
    requires i < j < |x|
    ensures x[i] < x[j]
    decreases j - i
  {
    if i + 1 < j {
      RisingIsOrdered(x, i + 1, j);
    }
  }

  /** On a flat series nothing moves: every gain and every loss is zero. */
  lemma FlatSeriesHasNoMoves(x: seq<real>)
    requires forall j :: 0 <= j < |x| ==> x[j] == x[0]
    ensures forall j :: 0 <= j < |x| ==> Gains(x)[j] == 0.0 && Losses(x)[j] == 0.0
  {
    forall j | 1 <= j < |x|
      ensures Gains(x)[j] == 0.0 && Losses(x)[j] == 0.0
    {
      GainsLossesSplitMoves(x, j);
    }
  }

  /** With no gain and no loss in any window the RSI is undefined at every
      position, as on a flat series. */
  lemma RsiOfFlatSeriesIsUndefined(x: seq<real>, p: nat, i: nat)
    requires p >= 1 && i < |x|
    requires forall j :: 0 <= j < |x| ==> x[j] == x[0]
    ensures RSI(x, p)[i].None?
  {
    if i >= p - 1 {
      FlatSeriesHasNoMoves(x);
      var g := Window(Gains(x), i, p);
      var l := Window(Losses(x), i, p);
      MeanAtMost(g, 0.0, 0);
      MeanAtMost(l, 0.0, 0);
      SmaAtLeast(Gains(x), p, 0.0);
      SmaAtLeast(Losses(x), p, 0.0);
      assert AverageGain(x, p)[i] == Some(0.0);
      assert AverageLoss(x, p)[i] == Some(0.0);
    }
  }
}

=== FILE: optional.dfy ===
/** An optional value. In the series of the model, `None` stands for the
    not-a-number entries that pandas produces where a value is undefined;
    in the fundamentals record it stands for a field the provider omitted. */
module Optional {

  datatype Option<+T> = None | Some(value: T)
}

=== FILE: series.dfy ===
/** Sums and arithmetic means of finite real sequences, with the facts about
    them that the rolling-window indicators rely on. */
module Series {

  /** The last element (Python's `[-1]`). */
  function Last<T>(s: seq<T>): T
    requires |s| > 0
  {
    s[|s| - 1]
  }

  /** Sum of a sequence. */
  function Sum(s: seq<real>): real
    decreases |s|
  {
    if |s| == 0 then 0.0 else Sum(s[..|s| - 1]) + s[|s| - 1]
  }

  function Mean(s: seq<real>): real
    requires |s| > 0
  {
    Sum(s) / |s| as real
  }

  /** Removing the first element of a slice takes it out of the sum. */
  lemma {:induction false} SumDropFirst(s: seq<real>)
    requires |s| > 0
    ensures Sum(s) == s[0] + Sum(s[1..])
    decreases |s|
  {
    if |s| > 1 {
      var n := |s| - 1;
      assert s[1..][..n - 1] == s[1..n];
      assert s[..n][1..] == s[1..n];
      SumDropFirst(s[..n]);
    }
  }

  /** Extending a slice by one element on the right adds that element. */
  lemma SumExtendRight(s: seq<real>, lo: nat, hi: nat)
    requires lo <= hi < |s|
    ensures Sum(s[lo..hi + 1]) == Sum(s[lo..hi]) + s[hi]
  {
    assert s[lo..hi + 1][..hi - lo] == s[lo..hi];
  }

  /** Shrinking a slice by one element on the left removes that element. */
  lemma SumShrinkLeft(s: seq<real>, lo: nat, hi: nat)
    requires lo < hi <= |s|
    ensures Sum(s[lo + 1..hi]) == Sum(s[lo..hi]) - s[lo]
  {
    SumDropFirst(s[lo..hi]);
    assert s[lo..hi][1..] == s[lo + 1..hi];
  }

  /** If every element is at most `m`, the sum is at most `|s| * m`; if, in
      addition, the element at `k` is strictly below `m`, so is the sum. */
  lemma {:induction false} SumAtMost(s: seq<real>, m: real, k: int)
    requires forall j :: 0 <= j < |s| ==> s[j] <= m
    ensures Sum(s) <= |s| as real * m
    ensures 0 <= k < |s| && s[k] < m ==> Sum(s) < |s| as real * m
    decreases |s|
  {
    if |s| > 0 {
      var n := |s| - 1;
      var pre := s[..n];
      assert forall j :: 0 <= j < n ==> pre[j] == s[j];
      SumAtMost(pre, m, k);
      var a := n as real * m;
      assert (n + 1) as real * m == a + m;
    }
  }

  /** If every element is at least `m`, the sum is at least `|s| * m`; if, in
      addition, the element at `k` is strictly above `m`, so is the sum. */
  lemma {:induction false} SumAtLeast(s: seq<real>, m: real, k: int)
    requires forall j :: 0 <= j < |s| ==> s[j] >= m
    ensures Sum(s) >= |s| as real * m
    ensures 0 <= k < |s| && s[k] > m ==> Sum(s) > |s| as real * m
    decreases |s|
  {
    if |s| > 0 {
      var n := |s| - 1;
      var pre := s[..n];
      assert forall j :: 0 <= j < n ==> pre[j] == s[j];
      SumAtLeast(pre, m, k);
      var a := n as real * m;
      assert (n + 1) as real * m == a + m;
    }
  }

  /** The mean of a sequence whose elements are all at most `m` is at most
      `m`, and strictly below it when the element at `k` is strictly below. */
  lemma MeanAtMost(s: seq<real>, m: real, k: int)
    requires |s| > 0
    requires forall j :: 0 <= j < |s| ==> s[j] <= m
    ensures Mean(s) <= m
    ensures 0 <= k < |s| && s[k] < m ==> Mean(s) < m
  {
    SumAtMost(s, m, k);
    var n := |s| as real;
    assert Mean(s) * n == Sum(s);
  }

  /** The mean of a sequence whose elements are all at least `m` is at least
      `m`, and strictly above it when the element at `k` is strictly above. */
  lemma MeanAtLeast(s: seq<real>, m: real, k: int)
    requires |s| > 0
    requires forall j :: 0 <= j < |s| ==> s[j] >= m
    ensures Mean(s) >= m
    ensures 0 <= k < |s| && s[k] > m ==> Mean(s) > m
  {
    SumAtLeast(s, m, k);
    var n := |s| as real;
    assert Mean(s) * n == Sum(s);
  }
}

=== FILE: variations.dfy ===
/** Period-over-period percentage changes of the closing price: daily, weekly,
    monthly, year to date and annual. */
module Variations {
  import opened Optional
  import opened Series

  /** One trading session: the calendar year of its date, its close and its
      traded volume (the only parts of a bar the computation reads). */
  datatype Bar = Bar(year: int, close: real, volume: real)

  function Closes(h: seq<Bar>): (c: seq<real>)
    ensures |c| == |h|
    ensures forall i :: 0 <= i < |h| ==> c[i] == h[i].close
  {
    seq(|h|, i requires 0 <= i < |h| => h[i].close)
  }

  function Volumes(h: seq<Bar>): (v: seq<real>)
    ensures |v| == |h|
    ensures forall i :: 0 <= i < |h| ==> v[i] == h[i].volume
  {
    seq(|h|, i requires 0 <= i < |h| => h[i].volume)
  }

  /** Percentage change from `reference` to `current`. Positive exactly when
      the price rose against a positive reference, zero exactly when it did
      not move. */
  function PctChange(current: real, reference: real): (r: real)
    requires reference != 0.0
    ensures reference > 0.0 ==> (r > 0.0 <==> current > reference)
    ensures r == 0.0 <==> current == reference
  {
    (current - reference) / reference * 100.0
  }

  /** `reference` grown by `pct` percent: the inverse of `PctChange`. */
  function Grow(reference: real, pct: real): real
  {
    reference * (1.0 + pct / 100.0)
  }

  /** Growing the reference by the percentage change gives back the current
      price. */
  lemma GrowByPctChange(current: real, reference: real)
    requires reference != 0.0
    ensures Grow(reference, PctChange(current, reference)) == current
  {
    var q := (current - reference) / reference;
    assert q * reference == current - reference;
    assert PctChange(current, reference) / 100.0 == q;
    assert Grow(reference, PctChange(current, reference)) == reference + q * reference;
  }

  /** The percentage change of a grown reference is the growth applied. */
  lemma PctChangeOfGrow(reference: real, pct: real)
    requires reference != 0.0
    ensures PctChange(Grow(reference, pct), reference) == pct
  {
    var g := Grow(reference, pct);
    assert g - reference == reference * (pct / 100.0);
    assert (g - reference) / reference == pct / 100.0;
  }

  lemma PctChangeExamples()
    ensures PctChange(110.0, 100.0) == 10.0
    ensures PctChange(90.0, 100.0) == -10.0
  {
  }

  predicate HasBarInYear(h: seq<Bar>, year: int)
  {
    exists i :: 0 <= i < |h| && h[i].year == year
  }

  /** Position of the first bar dated in `year`. */
  function FirstBarOfYear(h: seq<Bar>, year: int): (k: nat)
    requires HasBarInYear(h, year)
    ensures k < |h| && h[k].year == year
    ensures forall j :: 0 <= j < k ==> h[j].year != year
    decreases |h|
  {
    if h[0].year == year then 0
    else
      var i :| 0 <= i < |h| && h[i].year == year;
      assert h[1..][i - 1].year == year;
      1 + FirstBarOfYear(h[1..], year)
  }

  /** What the computation needs of a history: at least 22 bars (it reads the
      close at `[-22]`, 21 bars before the latest), a bar in the current year,
      and positive closes so that no percentage change divides by zero. */
  predicate Computable(h: seq<Bar>, currentYear: int)
  {
    && |h| >= 22
    && HasBarInYear(h, currentYear)
    && forall i :: 0 <= i < |h| ==> h[i].close > 0.0
  }

  /** The bar `back` positions from the end (Python's `[-back]`). */
  function Back(h: seq<Bar>, back: nat): Bar
    requires 1 <= back <= |h|
  {
    h[|h| - back]
  }

  /** Sessions in a trading year: the annual change needs that many bars. */
  const TradingYear: nat := 252

  datatype StockData = StockData(
    currentPrice: real,
    daily: real,
    weekly: real,
    monthly: real,
    ytd: real,
    annual: Option<real>)

  /** The latest close and its changes against the close 1, 5, 21 and 251
      bars earlier and against the first close of the current year. Each
      change grows its reference close into the latest close; the annual
      change exists exactly when a full trading year of bars is present. */
  function GetStockData(h: seq<Bar>, currentYear: int): (d: StockData)
    requires Computable(h, currentYear)
    ensures d.currentPrice == Last(h).close
    ensures Grow(Back(h, 2).close, d.daily) == d.currentPrice
    ensures Grow(Back(h, 6).close, d.weekly) == d.currentPrice
    ensures Grow(Back(h, 22).close, d.monthly) == d.currentPrice
    ensures Grow(h[FirstBarOfYear(h, currentYear)].close, d.ytd) == d.currentPrice
    ensures d.annual.Some? <==> |h| >= TradingYear
    ensures d.annual.Some? ==> Grow(Back(h, TradingYear).close, d.annual.value) == d.currentPrice
  {
    var last := Last(h).close;
    var yearStart := h[FirstBarOfYear(h, currentYear)].close;
    GrowByPctChange(last, Back(h, 2).close);
    GrowByPctChange(last, Back(h, 6).close);
    GrowByPctChange(last, Back(h, 22).close);
    GrowByPctChange(last, yearStart);
    StockData(
      last,
      PctChange(last, Back(h, 2).close),
      PctChange(last, Back(h, 6).close),
      PctChange(last, Back(h, 22).close),
      PctChange(last, yearStart),
      if |h| >= TradingYear then
        GrowByPctChange(last, Back(h, TradingYear).close);
        Some(PctChange(last, Back(h, TradingYear).close))
      else None)
  }
}
